=== FILE: README.md ===
# python-jamo in Dafny

A model of the Hangul toolkit python-jamo, covering the behaviour that its
functional tests pin down. The model works on Unicode codepoints (`int`) and
strings of codepoints (`seq<Codepoint>`). Every operation is a pure function
that returns a `Result` where the library raises `InvalidJamoError`.

It covers:

- The classifiers `is_hangul_char`, `is_jamo`, `is_jamo_modern`, `is_hcj`,
  `is_hcj_modern` and `get_jamo_class`. These are `Classifier.IsHangulChar`,
  `IsJamo`, `IsJamoModern`, `IsHcj`, `IsHcjModern`, `GetJamoClass` and
  `JamoClassOf`.
- The conversion of conjoining jamo (U+11xx) to Hangul Compatibility Jamo
  (HCJ, U+31xx): `jamo_to_hcj` and `j2hcj`, modelled by
  `HcjConversion.JamoToHcj`.
- The reverse, class-scoped lookup `hcj_to_jamo(char, class)` and its alias
  `hcj2j`, modelled by `HcjConversion.HcjToJamo`. It takes an HCJ letter or a
  jamo. Both directions read one table: positional lists for the modern
  leads, vowels and tails, plus the archaic jamo whose compatibility form is
  known. `jamo_to_hangul` resolves each of its arguments through this lookup.
- The decomposition of precomposed syllables, `hangul_to_jamo` and `h2j`,
  modelled by `Syllables.HangulToJamo`.
- The composition `jamo_to_hangul` and its alias `j2h`, modelled by
  `Syllables.JamoToHangul`. Each argument is a conjoining jamo or an HCJ
  letter. The tail is optional: it may be omitted, or given as `''` or
  `chr(0)`.

Decomposition and composition follow the arithmetic of The Unicode Standard,
chapter 3, section 3.12 ("Conjoining Jamo Behavior"). The base codepoints are
SBase U+AC00, LBase U+1100, VBase U+1161 and TBase U+11A7. The counts are
LCount 19, VCount 21, TCount 28, NCount 588 and SCount 11172.

The library's test cases are stated as lemmas in module `TestVectors`. The
range loops of the classifier tests are stated by `TestVectors.ClassifierRanges`,
and every codepoint they do not list is covered by the range `ensures` of the
`Classifier` predicates, which hold for every codepoint. The classifier tests also draw random syllables and check that
`is_hangul_char` accepts them and that `is_jamo`, `is_jamo_modern`, `is_hcj`
and `is_hcj_modern` refuse them. Those samples are replaced by two members
that hold for every codepoint: the range `ensures` of `Classifier.IsHangulChar`
and `Classifier.CategoriesNest`, which states that a syllable is none of jamo,
modern jamo, HCJ and modern HCJ.

A few `TestVectors` lemmas go beyond the library's tests: the refusals of
`hcj_to_jamo` and its behaviour on conjoining jamo (`HcjToJamoVowelAsLead`,
`HcjToJamoLeadOnlyAsTail`, `HcjToJamoLatin`, `HcjToJamoOfJamo`) fix behaviour
that the tests leave open.

Further properties are proved for every input:

- `Syllables.RoundTrip` and `Syllables.RoundTripThroughHcj` hold for every
  one of the 11172 syllables.
- `HcjConversion.HcjRoundTrip` and `HcjConversion.HcjToJamoIff` hold for
  every jamo in the table.

Files:

- `base.dfy`: codepoints, `Result` and `Option`, and sequence helpers.
- `classifier.dfy`: the classifiers.
- `hcj.dfy`: the jamo/HCJ table and both conversions.
- `syllable.dfy`: decomposition and composition.
- `vectors.dfy`: the test cases.

## Model

| member | source | states |
|---|---|---|
| `Classifier.IsHangulChar` | tests/test_jamo.py:164-182 | `is_hangul_char` accepts exactly the 19 * 21 * 28 = 11172 codepoints from U+AC00 to U+D7A3. U+ABFF and U+D7A4 are refused. |
| `Classifier.IsHcj` | tests/test_jamo.py:107-134 | `is_hcj` accepts exactly U+3131..U+318E without the filler U+3164. So U+3130, U+3164 and U+318F are refused. |
| `Classifier.IsHcjModern` | tests/test_jamo.py:136-162 | `is_hcj_modern` accepts exactly the HCJ letters before the filler, U+3131..U+3163. |
| `Classifier.IsJamo` | tests/test_jamo.py:35-73 | `is_jamo` accepts exactly U+1100..U+11FF, HCJ (U+3131..U+318E without U+3164), Extended-A U+A960..U+A97C, and Extended-B U+D7B0..U+D7FB without the unassigned U+D7C7..U+D7CA. U+A97D and U+D7FC are refused. |
| `Classifier.IsJamoModern` | tests/test_jamo.py:75-105 | `is_jamo_modern` accepts exactly a jamo that is modern in the class `get_jamo_class` gives it, or a modern HCJ letter. These are leads U+1100..U+1112, vowels U+1161..U+1175, tails U+11A8..U+11C2 and U+3131..U+3163. |
| `Classifier.GetJamoClass` | tests/test_jamo.py:184-224 | A codepoint is classed exactly when it lies in U+1100..U+11FF. It is a lead for U+1100..U+115F (including the lead filler), a vowel for U+1160..U+11A7 (including the vowel filler) and a tail for U+11A8..U+11FF. A classed codepoint is never HCJ. Everything else fails with InvalidJamo. |
| `Classifier.JamoClassOf` | tests/test_jamo.py:204-240 | A string argument that is empty or longer than one character is refused before classification. A single character gets the class of its codepoint. |
| `Classifier.CategoriesNest` | tests/test_jamo.py:35-182 | Modern HCJ is HCJ. HCJ is jamo but never conjoining. Modern jamo is jamo. A precomposed syllable is none of jamo, modern jamo, HCJ and modern HCJ. |
| `Classifier.ModernClassified` | tests/test_jamo.py:75-105 | Every modern lead, vowel or tail is modern jamo, is conjoining, and `get_jamo_class` gives its own class. |
| `TestVectors.ClassifierEdges` | tests/test_jamo.py:42-172 | The first and last codepoint of every jamo, HCJ, Extended-A, Extended-B and syllable range is accepted. The codepoint just outside each range is refused, as are the listed edge cases (U+A07D included). The same holds for the modern-jamo edges (U+1100, U+1112, U+1161, U+1175, U+11A8, U+11C2, U+3131 and U+3163 accepted; U+10FF, U+1113, U+1160, U+1176, U+11A7, U+11C3, U+3130 and U+3164 refused) and the modern-HCJ edges. |
| `TestVectors.ClassifierRanges` | tests/test_jamo.py:42-162 | Every codepoint of the ranges the tests loop over is accepted: U+1100..U+11FF, HCJ without U+3164, Extended-A and Extended-B without its gap are jamo; the HCJ ranges are HCJ; U+3131..U+3163 are modern HCJ. |
| `TestVectors.SyllablesAreHangul` | tests/test_jamo.py:170-178 | Each sample syllable is a Hangul character and neither jamo nor modern jamo. |
| `TestVectors.OtherCharactersRefused` | tests/test_jamo.py:59-182 | Letters, punctuation and dashes are not jamo, not modern jamo, not HCJ, not modern HCJ and not syllables. |
| `TestVectors.HcjIsNotHangul` | tests/test_jamo.py:173-182 | The HCJ letters `ㄱㄴㅓ` are modern HCJ and not syllables. |
| `TestVectors.ConjoiningIsNotHcj` | tests/test_jamo.py:121-182 | Conjoining jamo, modern or archaic, are not HCJ. U+1113 is jamo but not modern. The archaic HCJ letters U+318E and U+3165 are not modern HCJ. None of these characters is a syllable. |
| `TestVectors.JamoClassExamples` | tests/test_jamo.py:195-240 | Gives the class at each class edge, both fillers included. Refuses U+10FF, U+1200, `a` and `~` with InvalidJamo. Refuses the empty string and a two-character string. |
| `HcjConversion.TableWellFormed` | tests/test_jamo.py:11-23 | The lead list has 19 entries and the tail list 27, both strictly increasing within the modern HCJ consonants. The archaic part pairs four U+11xx jamo with four distinct archaic HCJ letters. |
| `HcjConversion.JamoToHcjChar` | tests/test_jamo.py:243-256 | A jamo in the table becomes an HCJ letter different from itself, which is modern exactly for modern jamo. Every other character is returned unchanged. |
| `HcjConversion.JamoToHcj` | tests/test_jamo.py:243-285 | `jamo_to_hcj` preserves length and converts each character independently, in place. |
| `HcjConversion.JamoToHcjIdempotent` | tests/test_jamo.py:247-248 | Converting twice gives the same text as converting once. |
| `HcjConversion.JamoToHcjFixesNonConjoining` | tests/test_jamo.py:260-263 | Text without conjoining jamo (ASCII, Chinese, HCJ) is returned unchanged. |
| `HcjConversion.TableKeysConjoining` | tests/test_jamo.py:247-248 | Every jamo the table converts lies in the U+11xx block, so characters outside it are never converted. |
| `HcjConversion.JamoToHcjFixedPoints` | tests/test_jamo.py:264-267 | The conversion leaves a text unchanged if and only if the text contains no jamo the table knows. Unmapped archaic jamo are passed through. |
| `HcjConversion.ArchaicToJamo` | tests/test_jamo.py:315-319 | An archaic HCJ letter resolves only to an archaic jamo of the requested class whose compatibility letter it is. |
| `HcjConversion.LetterToJamo` | tests/test_jamo.py:313-320 | The table read backwards within one class. A success starts from an HCJ letter and yields a jamo of that class whose compatibility letter is that input. The jamo is modern exactly when the letter is modern HCJ. |
| `HcjConversion.HcjToJamo` | tests/test_jamo.py:308-331 | Every result is a jamo of the requested class. For an HCJ letter, the result's compatibility letter is the input, and the result is modern exactly when the letter is modern HCJ. Any other codepoint is returned as it is exactly when it is a jamo of the requested class. Every failure is InvalidJamo. |
| `HcjConversion.HcjRoundTrip` | tests/test_jamo.py:313-320 | Every jamo in the table comes back from its compatibility letter when its own class is requested. |
| `HcjConversion.LeadRoundTrip` | tests/test_jamo.py:313-317 | The round trip holds for every modern lead. |
| `HcjConversion.TailRoundTrip` | tests/test_jamo.py:313-318 | The round trip holds for every modern tail. |
| `HcjConversion.ArchaicRoundTrip` | tests/test_jamo.py:315-319 | The round trip holds for every archaic jamo in the table. |
| `HcjConversion.HcjToJamoIff` | tests/test_jamo.py:308-357 | `hcj_to_jamo(h, class)` gives `j` if and only if one of two cases holds. Either `j` is a jamo of that class whose compatibility letter is `h`, or `h` is not HCJ and is itself the jamo `j` of that class. |
| `HcjConversion.HcjToJamoRefusal` | tests/test_jamo.py:308-312 | A refused lookup means that no jamo of the requested class has that letter. |
| `HcjConversion.ModernHcjCovered` | tests/test_jamo.py:17-23 | Every modern HCJ letter resolves, for some class, to a modern jamo of that class. |
| `TestVectors.HcjListsAreColumns` | tests/test_jamo.py:16-23 | The HCJ lead and tail lists of the tests are exactly the table's lead and tail columns. |
| `TestVectors.ModernHcjListsAreModern` | tests/test_jamo.py:84-86 | Every letter of the three modern HCJ lists is modern jamo. |
| `TestVectors.ModernLeadsToHcj` | tests/test_jamo.py:251-256 | The modern leads convert to the lead list, in order. |
| `TestVectors.ModernVowelsToHcj` | tests/test_jamo.py:251-256 | The modern vowels U+1161..U+1175 convert to U+314F..U+3163. |
| `TestVectors.ModernTailsToHcj` | tests/test_jamo.py:251-256 | The modern tails convert to the tail list, in order. |
| `TestVectors.ArchaicToHcj` | tests/test_jamo.py:257-259 | `ᄀᄁᄂᄃᇹᇫ` converts to `ㄱㄲㄴㄷㆆㅿ`. |
| `TestVectors.JamoToHcjKeepsAscii` | tests/test_jamo.py:295-296 | The empty string and `test123` are returned unchanged. |
| `TestVectors.JamoToHcjKeepsPunctuation` | tests/test_jamo.py:260 | ASCII letters, punctuation and dashes are returned unchanged. |
| `TestVectors.JamoToHcjKeepsChinese` | tests/test_jamo.py:261 | Chinese and accented Latin text is returned unchanged. |
| `TestVectors.JamoToHcjKeepsHcj` | tests/test_jamo.py:262 | HCJ text (`ㄱㆎ`) is returned unchanged. |
| `TestVectors.JamoToHcjKeepsUnmapped` | tests/test_jamo.py:264-267 | Archaic vowels without a compatibility form are returned unchanged. |
| `TestVectors.HcjToJamoKiyeok` | tests/test_jamo.py:313-317 | `ㄱ` gives U+1100 as a lead and U+11A8 as a tail. |
| `TestVectors.HcjToJamoHieuh` | tests/test_jamo.py:314-318 | `ㅎ` gives U+1112 as a lead and U+11C2 as a tail. |
| `TestVectors.HcjToJamoArchaic` | tests/test_jamo.py:315-319 | `ㅹ` gives the archaic lead U+112C. |
| `TestVectors.HcjToJamoArchaicTail` | tests/test_jamo.py:315-319 | `ㅥ` gives the archaic tail U+11FF. |
| `TestVectors.HcjToJamoVowels` | tests/test_jamo.py:316-320 | `ㅏ` and `ㅣ` give U+1161 and U+1175 as vowels. |
| `TestVectors.HcjToJamoVowelAsLead` | tests/test_jamo.py:308-311 | A vowel letter requested as a lead is refused. The library's tests leave this case open. |
| `TestVectors.HcjToJamoLeadOnlyAsTail` | tests/test_jamo.py:308-311 | `ㄸ`, which exists only as a lead, is refused as a tail. The library's tests leave this case open. |
| `TestVectors.HcjToJamoLatin` | tests/test_jamo.py:308-311 | A codepoint that is neither HCJ nor jamo is refused. The library's tests leave this case open. |
| `TestVectors.HcjToJamoOfJamo` | tests/test_jamo.py:308-311 | A conjoining jamo requested in its own class is returned as it is, and is refused in another class. The library's tests leave this case open. |
| `Syllables.IndexSplit` | tests/test_jamo.py:378-393 | Division by NCount and TCount recovers the lead, vowel and tail indices from a syllable's block index. |
| `Syllables.IndexJoin` | tests/test_jamo.py:378-393 | Every block index is rebuilt from the indices that division extracts. |
| `Syllables.Decompose` | tests/test_jamo.py:359-393 | A syllable splits into a modern lead, a modern vowel and an optional modern tail. The tail is absent exactly when the syllable's offset is a multiple of TCount. The Unicode formula maps the parts back to the syllable. |
| `Syllables.DecomposeUnique` | tests/test_jamo.py:359-393 | A syllable has only one decomposition into modern jamo. |
| `Syllables.JamoOf` | tests/test_jamo.py:378-393 | A decomposition lists two jamo (lead, vowel), or three when there is a tail. |
| `Syllables.HangulToJamoChar` | tests/test_jamo.py:359-364 | A syllable expands to the jamo of its decomposition. Any other character is passed through. No syllable remains. |
| `Syllables.HangulToJamo` | tests/test_jamo.py:359-413 | `hangul_to_jamo` leaves no syllable in its output. The output length is between one and three times the input length. |
| `Syllables.HangulToJamoConcat` | tests/test_jamo.py:375-393 | Decomposing a concatenation equals concatenating the decompositions. |
| `Syllables.HangulToJamoPassThrough` | tests/test_jamo.py:376-391 | A character that is not a syllable keeps its place between decomposed parts. |
| `Syllables.HangulToJamoFixedPoints` | tests/test_jamo.py:424-425 | Decomposition leaves a text unchanged if and only if the text holds no syllable. |
| `Syllables.HangulToJamoIdempotent` | tests/test_jamo.py:415-425 | `h2j` applied twice gives the same text as applying it once. |
| `Syllables.TailOf` | tests/test_jamo.py:448-474 | The tail counts as absent exactly when it is `Omitted` or `chr(0)`. `Omitted` stands for both the two-argument form and the empty string `''`. |
| `Syllables.ResolveTail` | tests/test_jamo.py:448-464 | An absent tail resolves to none. A present tail resolves exactly when `hcj_to_jamo` accepts it as a tail, and then to `Some` of that tail jamo. |
| `Syllables.Resolved` | tests/test_jamo.py:438-445 | The resolved arguments of a composable call form a modern decomposition. |
| `Syllables.JamoToHangul` | tests/test_jamo.py:438-511 | `jamo_to_hangul` succeeds if and only if every argument resolves to a modern jamo of its position's class. The result is a syllable whose decomposition is exactly the resolved arguments. Every failure is InvalidJamo. |
| `Syllables.TailArgOf` | tests/test_jamo.py:448-455 | The tail argument built from a tail gives that tail back, except for `chr(0)`, which is never a decomposition's tail. |
| `Syllables.RoundTrip` | tests/test_jamo.py:448-455 | For every syllable, composing the jamo that `hangul_to_jamo` gives returns that syllable. |
| `Syllables.ResolveModern` | tests/test_jamo.py:456-464 | A modern jamo and its HCJ letter both resolve to that jamo in its own class. |
| `Syllables.SameResolution` | tests/test_jamo.py:476-478 | Two calls whose arguments resolve alike compose alike. |
| `Syllables.RoundTripThroughHcj` | tests/test_jamo.py:456-472 | For every syllable, composing the HCJ letters of its jamo returns that syllable. |
| `Syllables.MixedArguments` | tests/test_jamo.py:476-478 | Any one argument may be swapped for its HCJ letter without changing the syllable composed. This holds in the two-argument form as well as with a tail. |
| `Syllables.ZeroTailIsOmitted` | tests/test_jamo.py:448-475 | For every lead and vowel, a `chr(0)` tail gives the same syllable or the same refusal as the two-argument form. |
| `Syllables.HcjArguments` | tests/test_jamo.py:456-472 | Giving all arguments as HCJ composes the same syllable as giving the modern jamo. |
| `TestVectors.HangulToJamoSyllables` | tests/test_jamo.py:367-385 | 자, 모, 한 and 글 decompose into the listed jamo. |
| `TestVectors.HangulToJamoMoreSyllables` | tests/test_jamo.py:371-385 | 서, 울, 평 and 양 decompose into the listed jamo. |
| `TestVectors.HangulToJamoWord` | tests/test_jamo.py:375-387 | 한굴 decomposes syllable by syllable, in order. |
| `TestVectors.HangulToJamoSentence` | tests/test_jamo.py:376-391 | In `Do you speak 한국어?` the ASCII keeps its place and 한국어 decomposes. |
| `TestVectors.HangulToJamoMixedScripts` | tests/test_jamo.py:422-423 | `자모=字母` decomposes its syllables and keeps `=字母`. |
| `TestVectors.HangulToJamoKeepsNonSyllables` | tests/test_jamo.py:424-425 | The empty string, `test123~` and the HCJ text `ㄱㄲㄴㄷㆆㅿ` are returned unchanged. |
| `TestVectors.JamoToHangulFromJamo` | tests/test_jamo.py:448-472 | The eight sample syllables compose from conjoining jamo, with `chr(0)` standing for no tail. |
| `TestVectors.JamoToHangulFromHcj` | tests/test_jamo.py:457 | ㅈ ㅏ with an empty tail composes 자. |
| `TestVectors.JamoToHangulFromHcjMo` | tests/test_jamo.py:458 | ㅁ ㅗ with an empty tail composes 모. |
| `TestVectors.JamoToHangulFromHcjHan` | tests/test_jamo.py:524-525 | ㅎ ㅏ ㄴ composes 한. |
| `TestVectors.JamoToHangulFromHcjGeul` | tests/test_jamo.py:460 | ㄱ ㅡ ㄹ composes 글. |
| `TestVectors.JamoToHangulFromHcjSeo` | tests/test_jamo.py:461 | ㅅ ㅓ with an empty tail composes 서. |
| `TestVectors.JamoToHangulFromHcjUl` | tests/test_jamo.py:462 | ㅇ ㅜ ㄹ composes 울. |
| `TestVectors.JamoToHangulFromHcjPyeong` | tests/test_jamo.py:463 | ㅍ ㅕ ㅇ composes 평. |
| `TestVectors.JamoToHangulFromHcjYang` | tests/test_jamo.py:464 | ㅇ ㅑ ㅇ composes 양. |
| `TestVectors.JamoToHangulTwoArguments` | tests/test_jamo.py:527-528 | The two-argument form ㅎ ㅏ composes 하. |
| `TestVectors.JamoToHangulMixed` | tests/test_jamo.py:476-478 | A conjoining ᄒ with HCJ ㅏ and ㄴ composes 한. |
| `TestVectors.JamoToHangulRefusals` | tests/test_jamo.py:480-511 | Latin letters are refused, as are a consonant in the vowel position and a vowel in the lead position. A lead filler is classed but cannot be composed. |

## Left out

- The library returns generators from `jamo_to_hcj` and `hangul_to_jamo`, and joined strings from the aliases `j2hcj` and `h2j`. The model returns a finished sequence, so laziness and the generator type (tests/test_jamo.py:278, 397) are not modelled.
- The aliases `j2hcj`, `h2j`, `hcj2j` and `j2h` are not separate members. Each behaves exactly like the function it names, so one function models both.
- Warnings the library writes to `stderr` before raising are not modelled. Only the error itself, `InvalidJamo`, is.
- The random sampling of syllables in the tests is replaced by lemmas over every syllable. The sampling itself is not modelled.
- The archaic part of the jamo/HCJ table holds only the pairs these tests pin down: U+112C/U+3179, U+11EB/U+317F, U+11F9/U+3186 and U+11FF/U+3165. The library's full archaic table is not part of this model. Any other archaic jamo is passed through unchanged.
- `get_jamo_class` classes only the U+1100 block. Extended-A and Extended-B jamo, although `is_jamo` accepts them, are refused like HCJ.
- A class name other than lead, vowel or tail cannot be expressed, because `JamoClass` has three values. The library's handling of such names is not modelled.
- `j2h` called with integer codepoints instead of characters, which its docstring allows (tests/test_jamo.py:515), is the same call on codepoints here. Argument-type checks are not modelled.
- `test_synth_hangul` (tests/test_jamo.py:530-532) is empty and has nothing to model.
- Command-line use of the library, file reading and printing are not modelled.

=== FILE: base.dfy ===
/** Values shared by every part of the jamo model: codepoints, the jamo
    classes, the single error kind and the failure-carrying wrappers. */
module JamoBase {

  /** A Unicode scalar value as Python's `ord`/`chr` see it. */
  type Codepoint = c: int | 0 <= c <= 0x10FFFF

  /** A string is a sequence of codepoints. */
  type Text = seq<Codepoint>

  /** The positional role of a jamo within a syllable. */
  datatype JamoClass = Lead | Vowel | Tail

  /** `InvalidJamo` is the library's `InvalidJamoError`; `NotASingleCharacter`
      stands for the exception raised when an operation on one character is
      handed an empty or a longer string. */
  datatype JamoError = InvalidJamo | NotASingleCharacter

  datatype Option<+T> = None | Some(value: T)

  datatype Result<+T> = Ok(value: T) | Err(error: JamoError)

  /** The codepoints of a Dafny string literal, so that the test strings can
      be written as they are. */
  function Str(s: string): (r: Text)
    ensures |r| == |s|
    ensures forall i :: 0 <= i < |s| ==> r[i] == s[i] as int
  {
    seq(|s|, i requires 0 <= i < |s| => s[i] as int)
  }

  /** The position of the first occurrence of `x` in `s`, if any. */
  function IndexOf(s: seq<int>, x: int): (r: Option<nat>)
    ensures r.Some? ==> r.value < |s| && s[r.value] == x
    ensures r.Some? ==> forall k :: 0 <= k < r.value ==> s[k] != x
    ensures r.None? <==> x !in s
  {
    if s == [] then None
    else if s[0] == x then Some(0)
    else match IndexOf(s[1..], x)
      case None => None
      case Some(i) => Some(i + 1)
  }

  /** Strictly increasing: the order in which the Unicode charts list letters. */
  predicate Increasing(s: seq<int>)
  {
    forall i :: 0 <= i < |s| - 1 ==> s[i] < s[i + 1]
  }

  /** No value occurs twice. */
  predicate Distinct(s: seq<int>)
  {
    forall i, j :: 0 <= i < j < |s| ==> s[i] != s[j]
  }

  /** A strictly increasing sequence holds no value twice. */
  lemma {:induction false} IncreasingIsDistinct(s: seq<int>)
    requires Increasing(s)
    ensures Distinct(s)
  {
    forall i, j | 0 <= i < j < |s| ensures s[i] < s[j] {
      Ascending(s, i, j);
    }
  }

  /** Every later element of a strictly increasing sequence is larger. */
  lemma {:induction false} Ascending(s: seq<int>, i: nat, j: nat)
    requires Increasing(s) && i < j < |s|
    ensures s[i] < s[j]
  {
    if i + 1 < j {
      Ascending(s, i, j - 1);
    }
    assert s[j - 1] < s[j];
  }

  /** In a sequence without repetitions every element is found at its own
      position. */
  lemma IndexOfDistinct(s: seq<int>, i: nat)
    requires Distinct(s) && i < |s|
    ensures IndexOf(s, s[i]) == Some(i)
  {
  }
}

=== FILE: classifier.dfy ===
/** Classification of single codepoints: precomposed syllables, conjoining
    jamo (modern and archaic), Hangul Compatibility Jamo (HCJ), and the
    lead/vowel/tail class of a conjoining jamo. The ranges follow the Unicode
    code charts U+1100 (Hangul Jamo), U+3130 (Hangul Compatibility Jamo),
    U+A960 (Hangul Jamo Extended-A), U+D7B0 (Hangul Jamo Extended-B) and the
    Hangul Syllables block U+AC00..U+D7A3. */
module Classifier {
  import opened JamoBase

  /** `is_hangul_char`: a precomposed syllable, one of the 19 * 21 * 28
      lead/vowel/tail combinations of the Hangul Syllables block. */
  predicate IsHangulChar(c: Codepoint): (r: bool)
    ensures r <==> 0 <= c - 0xAC00 < 19 * 21 * 28
  {
    0xAC00 <= c <= 0xD7A3
  }

  /** `is_hcj`: the HCJ block without the unassigned U+3130 and U+318F and
      without the Hangul filler U+3164. */
  predicate IsHcj(c: Codepoint): (r: bool)
    ensures r <==> 0x3131 <= c <= 0x318E && c != 0x3164
  {
    (0x3131 <= c < 0x3164) || (0x3165 <= c < 0x318F)
  }

  /** `is_hcj_modern`: the HCJ letters used in modern Hangul, which are the
      HCJ letters before the filler U+3164. */
  predicate IsHcjModern(c: Codepoint): (r: bool)
    ensures r <==> IsHcj(c) && c < 0x3164
  {
    0x3131 <= c < 0x3164
  }

  /** A conjoining jamo of the U+1100 block or of the two extension blocks,
      leaving out the unassigned codepoints of Extended-A and Extended-B. */
  predicate IsConjoining(c: Codepoint)
  {
    || (0x1100 <= c < 0x1200)
    || (0xA960 <= c < 0xA97D)
    || (0xD7B0 <= c < 0xD7C7)
    || (0xD7CB <= c < 0xD7FC)
  }

  /** `is_jamo`: every conjoining jamo and every HCJ letter. */
  predicate IsJamo(c: Codepoint): (r: bool)
    ensures r <==>
      || 0x1100 <= c <= 0x11FF
      || (0x3131 <= c <= 0x318E && c != 0x3164)
      || 0xA960 <= c <= 0xA97C
      || (0xD7B0 <= c <= 0xD7FB && !(0xD7C7 <= c <= 0xD7CA))
  {
    IsConjoining(c) || IsHcj(c)
  }

  predicate IsModernLead(c: Codepoint)  { 0x1100 <= c < 0x1113 }
  predicate IsModernVowel(c: Codepoint) { 0x1161 <= c < 0x1176 }
  predicate IsModernTail(c: Codepoint)  { 0x11A8 <= c < 0x11C3 }

  /** A conjoining jamo used in modern Hangul, of the given class. */
  predicate IsModernOfClass(c: Codepoint, cls: JamoClass)
  {
    match cls
    case Lead => IsModernLead(c)
    case Vowel => IsModernVowel(c)
    case Tail => IsModernTail(c)
  }

  /** `is_jamo_modern`: the 19 modern leads, 21 modern vowels and 27 modern
      tails, together with the HCJ letters that stand for them: a jamo that
      is modern in the class `get_jamo_class` gives it, or a modern HCJ
      letter. */
  predicate IsJamoModern(c: Codepoint): (r: bool)
    ensures r <==> (GetJamoClass(c).Ok? && IsModernOfClass(c, GetJamoClass(c).value)) || IsHcjModern(c)
  {
    IsModernLead(c) || IsModernVowel(c) || IsModernTail(c) || IsHcjModern(c)
  }

  /** `get_jamo_class` on one codepoint. Only the U+1100 block is classed; the
      fillers U+115F and U+1160 fall in by range. HCJ is class-ambiguous and is
      refused, like every other codepoint outside the block. */
  function GetJamoClass(c: Codepoint): (r: Result<JamoClass>)
    ensures r.Ok? <==> 0x1100 <= c < 0x1200
    ensures r.Ok? ==> IsConjoining(c) && !IsHcj(c)
    ensures r == Ok(Lead) <==> 0x1100 <= c < 0x1160
    ensures r == Ok(Vowel) <==> 0x1160 <= c < 0x11A8
    ensures r == Ok(Tail) <==> 0x11A8 <= c < 0x1200
    ensures r.Err? ==> r.error == InvalidJamo
  {
    if 0x1100 <= c < 0x1160 then Ok(Lead)
    else if 0x1160 <= c < 0x11A8 then Ok(Vowel)
    else if 0x11A8 <= c < 0x1200 then Ok(Tail)
    else Err(InvalidJamo)
  }

  /** `get_jamo_class` on a string argument: anything but exactly one
      character is refused before it is classified. */
  function JamoClassOf(s: Text): (r: Result<JamoClass>)
    ensures |s| != 1 ==> r == Err(NotASingleCharacter)
    ensures |s| == 1 ==> r == GetJamoClass(s[0])
  {
    if |s| != 1 then Err(NotASingleCharacter) else GetJamoClass(s[0])
  }

  /** The categories nest and do not overlap: modern jamo and HCJ are jamo,
      modern HCJ is HCJ, and a syllable is never a jamo. */
  lemma CategoriesNest(c: Codepoint)
    ensures IsHcjModern(c) ==> IsHcj(c)
    ensures IsHcj(c) ==> IsJamo(c) && !IsConjoining(c)
    ensures IsJamoModern(c) ==> IsJamo(c)
    ensures IsHangulChar(c) ==> !IsJamo(c) && !IsJamoModern(c) && !IsHcj(c) && !IsHcjModern(c)
  {
  }

  /** Every modern jamo of a class is classified as that class. */
  lemma ModernClassified(c: Codepoint, cls: JamoClass)
    requires IsModernOfClass(c, cls)
    ensures GetJamoClass(c) == Ok(cls)
    ensures IsJamoModern(c) && IsConjoining(c)
  {
  }
}

=== FILE: hcj.dfy ===
/** The mapping between conjoining jamo and Hangul Compatibility Jamo
    (`jamo_to_hcj`, `j2hcj`, `hcj_to_jamo`, `hcj2j`).

    One table is the single source of both directions. Its modern part is
    positional: the i-th modern lead, vowel or tail corresponds to the i-th
    letter of LeadsHcj, of the vowel run U+314F.. or of TailsHcj. Its archaic
    part lists the archaic jamo whose compatibility form is known. The
    relation is not a bijection: one HCJ letter such as U+3131 stands for a
    lead and for a tail, so the reverse lookup is scoped by class. */
module HcjConversion {
  import opened JamoBase
  import opened Classifier

  /** HCJ of the modern leads U+1100..U+1112, in chart order. */
  const LeadsHcj: seq<Codepoint> :=
    [0x3131, 0x3132, 0x3134, 0x3137, 0x3138, 0x3139, 0x3141, 0x3142, 0x3143,
     0x3145, 0x3146, 0x3147, 0x3148, 0x3149, 0x314A, 0x314B, 0x314C, 0x314D,
     0x314E]

  /** HCJ of the modern tails U+11A8..U+11C2, in chart order. */
  const TailsHcj: seq<Codepoint> :=
    [0x3131, 0x3132, 0x3133, 0x3134, 0x3135, 0x3136, 0x3137, 0x3139, 0x313A,
     0x313B, 0x313C, 0x313D, 0x313E, 0x313F, 0x3140, 0x3141, 0x3142, 0x3144,
     0x3145, 0x3146, 0x3147, 0x3148, 0x314A, 0x314B, 0x314C, 0x314D, 0x314E]

  /** The modern vowels U+1161..U+1175 map onto U+314F..U+3163 by offset. */
  const VowelHcjBase: int := 0x314F

  /** Archaic jamo with a compatibility form (KAPYEOUNSSANGPIEUP lead,
      PANSIOS tail, YEORINHIEUH tail, SSANGNIEUN tail), and that form at the
      same position. */
  const ArchaicJamo: seq<Codepoint> := [0x112C, 0x11EB, 0x11F9, 0x11FF]
  const ArchaicHcj: seq<Codepoint> := [0x3179, 0x317F, 0x3186, 0x3165]

  /** The jamo the table maps to a compatibility letter. */
  predicate HasHcj(c: Codepoint)
  {
    IsModernLead(c) || IsModernVowel(c) || IsModernTail(c) || c in ArchaicJamo
  }

  /** The shape of the table: its columns are injective and hold letters of
      the blocks they claim. */
  lemma TableWellFormed()
    ensures |LeadsHcj| == 19 && |TailsHcj| == 27 && |ArchaicJamo| == |ArchaicHcj| == 4
    ensures Increasing(LeadsHcj) && Increasing(TailsHcj) && Increasing(ArchaicJamo)
    ensures Distinct(ArchaicHcj)
    ensures forall k :: 0 <= k < |LeadsHcj| ==> 0x3131 <= LeadsHcj[k] < 0x314F
    ensures forall k :: 0 <= k < |TailsHcj| ==> 0x3131 <= TailsHcj[k] < 0x314F
    ensures forall k :: 0 <= k < |ArchaicHcj| ==> IsHcj(ArchaicHcj[k]) && !IsHcjModern(ArchaicHcj[k])
    ensures forall k :: 0 <= k < |ArchaicJamo| ==> 0x1100 <= ArchaicJamo[k] < 0x1200
  {
  }

  /** `jamo_to_hcj` on one character: the compatibility letter of a jamo the
      table knows, and the character itself otherwise. */
  function JamoToHcjChar(c: Codepoint): (r: Codepoint)
    ensures HasHcj(c) ==> IsHcj(r) && r != c
    ensures !HasHcj(c) ==> r == c
    ensures IsModernLead(c) || IsModernVowel(c) || IsModernTail(c) ==> IsHcjModern(r)
    ensures c in ArchaicJamo ==> !IsHcjModern(r)
  {
    TableWellFormed();
    if IsModernLead(c) then LeadsHcj[c - 0x1100]
    else if IsModernVowel(c) then c - 0x1161 + VowelHcjBase
    else if IsModernTail(c) then TailsHcj[c - 0x11A8]
    else match IndexOf(ArchaicJamo, c)
      case Some(i) => ArchaicHcj[i]
      case None => c
  }

  /** The archaic part of the reverse lookup. */
  function ArchaicToJamo(h: Codepoint, cls: JamoClass): (r: Result<Codepoint>)
    ensures r.Ok? ==> r.value in ArchaicJamo && GetJamoClass(r.value) == Ok(cls)
    ensures r.Ok? ==> JamoToHcjChar(r.value) == h
    ensures r.Err? ==> r.error == InvalidJamo
  {
    TableWellFormed();
    match IndexOf(ArchaicHcj, h)
    case None => Err(InvalidJamo)
    case Some(i) =>
      var j := ArchaicJamo[i];
      IncreasingIsDistinct(ArchaicJamo);
      IndexOfDistinct(ArchaicJamo, i);
      if GetJamoClass(j) == Ok(cls) then Ok(j) else Err(InvalidJamo)
  }

  /** The table read backwards within one class: the jamo of class `cls`
      whose compatibility letter is `h`, if there is one. */
  function LetterToJamo(h: Codepoint, cls: JamoClass): (r: Result<Codepoint>)
    ensures r.Ok? ==> IsHcj(h) && HasHcj(r.value) && GetJamoClass(r.value) == Ok(cls)
    ensures r.Ok? ==> JamoToHcjChar(r.value) == h
    ensures r.Ok? ==> (IsModernOfClass(r.value, cls) <==> IsHcjModern(h))
    ensures r.Err? ==> r.error == InvalidJamo
  {
    TableWellFormed();
    match cls
    case Lead =>
      (match IndexOf(LeadsHcj, h)
       case Some(i) => IncreasingIsDistinct(LeadsHcj);
                       IndexOfDistinct(LeadsHcj, i);
                       Ok(0x1100 + i)
       case None => ArchaicToJamo(h, Lead))
    case Vowel =>
      if VowelHcjBase <= h < 0x3164 then Ok(h - VowelHcjBase + 0x1161)
      else ArchaicToJamo(h, Vowel)
    case Tail =>
      (match IndexOf(TailsHcj, h)
       case Some(i) => IncreasingIsDistinct(TailsHcj);
                       IndexOfDistinct(TailsHcj, i);
                       Ok(0x11A8 + i)
       case None => ArchaicToJamo(h, Tail))
  }

  /** `hcj_to_jamo(char, class)`: the conjoining jamo of the requested class
      for an HCJ letter or a jamo. An HCJ letter gives the jamo of that class
      whose compatibility letter it is, so the same letter gives different
      jamo for different classes; a letter without a jamo of that class is
      refused. Any other codepoint is returned as it is when it is a jamo of
      the requested class, and refused otherwise. */
  function HcjToJamo(h: Codepoint, cls: JamoClass): (r: Result<Codepoint>)
    ensures r.Ok? ==> GetJamoClass(r.value) == Ok(cls)
    ensures IsHcj(h) && r.Ok? ==> HasHcj(r.value) && JamoToHcjChar(r.value) == h
    ensures IsHcj(h) && r.Ok? ==> (IsModernOfClass(r.value, cls) <==> IsHcjModern(h))
    ensures !IsHcj(h) ==> (r.Ok? <==> GetJamoClass(h) == Ok(cls)) && (r.Ok? ==> r.value == h)
    ensures r.Err? ==> r.error == InvalidJamo
  {
    if IsHcj(h) then LetterToJamo(h, cls)
    else if GetJamoClass(h) == Ok(cls) then Ok(h)
    else Err(InvalidJamo)
  }

  /** Round trip through HCJ: a jamo the table knows comes back from its
      compatibility letter when its own class is requested. */
  lemma HcjRoundTrip(j: Codepoint, cls: JamoClass)
    requires HasHcj(j) && GetJamoClass(j) == Ok(cls)
    ensures HcjToJamo(JamoToHcjChar(j), cls) == Ok(j)
  {
    if IsModernLead(j) {
      LeadRoundTrip(j);
    } else if IsModernVowel(j) {
    } else if IsModernTail(j) {
      TailRoundTrip(j);
    } else {
      ArchaicRoundTrip(j, cls);
    }
  }

  lemma LeadRoundTrip(j: Codepoint)
    requires IsModernLead(j)
    ensures HcjToJamo(JamoToHcjChar(j), Lead) == Ok(j)
  {
    TableWellFormed();
    IncreasingIsDistinct(LeadsHcj);
    IndexOfDistinct(LeadsHcj, j - 0x1100);
  }

  lemma TailRoundTrip(j: Codepoint)
    requires IsModernTail(j)
    ensures HcjToJamo(JamoToHcjChar(j), Tail) == Ok(j)
  {
    TableWellFormed();
    IncreasingIsDistinct(TailsHcj);
    IndexOfDistinct(TailsHcj, j - 0x11A8);
  }

  lemma ArchaicRoundTrip(j: Codepoint, cls: JamoClass)
    requires j in ArchaicJamo && GetJamoClass(j) == Ok(cls)
    ensures HcjToJamo(JamoToHcjChar(j), cls) == Ok(j)
  {
    TableWellFormed();
    IncreasingIsDistinct(ArchaicJamo);
    var i := IndexOf(ArchaicJamo, j).value;
    var h := ArchaicHcj[i];
    assert !IsModernLead(j) && !IsModernVowel(j) && !IsModernTail(j);
    assert JamoToHcjChar(j) == h;
    IndexOfDistinct(ArchaicHcj, i);
    assert ArchaicToJamo(h, cls) == Ok(j);
    assert h !in LeadsHcj && h !in TailsHcj;
  }

  /** The reverse lookup is exactly the inverse of the table restricted to
      one class, extended by the identity on jamo: it yields `j` for `h` if
      and only if `j` is a jamo of that class whose compatibility letter is
      `h`, or `h` is no HCJ letter and is itself the jamo `j` of that class. */
  lemma HcjToJamoIff(h: Codepoint, cls: JamoClass, j: Codepoint)
    ensures HcjToJamo(h, cls) == Ok(j) <==>
            || (HasHcj(j) && GetJamoClass(j) == Ok(cls) && JamoToHcjChar(j) == h)
            || (!IsHcj(h) && j == h && GetJamoClass(j) == Ok(cls))
  {
    if HasHcj(j) && GetJamoClass(j) == Ok(cls) && JamoToHcjChar(j) == h {
      HcjRoundTrip(j, cls);
    }
  }

  /** A refused lookup means no jamo of that class has `h` as its letter. */
  lemma HcjToJamoRefusal(h: Codepoint, cls: JamoClass)
    requires HcjToJamo(h, cls).Err?
    ensures forall j: Codepoint :: HasHcj(j) && GetJamoClass(j) == Ok(cls) ==> JamoToHcjChar(j) != h
  {
    forall j: Codepoint | HasHcj(j) && GetJamoClass(j) == Ok(cls)
      ensures JamoToHcjChar(j) != h
    {
      HcjRoundTrip(j, cls);
    }
  }

  /** Every modern HCJ letter stands for a modern jamo of some class, and
      every modern jamo has a modern HCJ letter: the modern halves of the two
      blocks correspond. */
  lemma ModernHcjCovered(h: Codepoint)
    requires IsHcjModern(h)
    ensures exists cls :: HcjToJamo(h, cls).Ok? && IsModernOfClass(HcjToJamo(h, cls).value, cls)
  {
    TableWellFormed();
    if h >= VowelHcjBase {
      assert HcjToJamo(h, Vowel).Ok?;
    } else if h in LeadsHcj {
      assert HcjToJamo(h, Lead).Ok?;
    } else {
      assert h in TailsHcj;
      assert HcjToJamo(h, Tail).Ok?;
    }
  }

  /** `jamo_to_hcj` / `j2hcj` on a string: every character is converted on
      its own, in place. */
  function JamoToHcj(s: Text): (r: Text)
    ensures |r| == |s|
    ensures forall i :: 0 <= i < |s| ==> r[i] == JamoToHcjChar(s[i])
  {
    if s == [] then [] else [JamoToHcjChar(s[0])] + JamoToHcj(s[1..])
  }

  /** Converting twice is converting once: compatibility letters are not
      keys of the table. */
  lemma {:induction false} JamoToHcjIdempotent(s: Text)
    ensures JamoToHcj(JamoToHcj(s)) == JamoToHcj(s)
  {
    var r := JamoToHcj(s);
    forall i | 0 <= i < |r| ensures JamoToHcjChar(r[i]) == r[i] {
      var c := r[i];
      if HasHcj(c) {
        TableKeysConjoining(c);
        CategoriesNest(JamoToHcjChar(s[i]));
      }
    }
  }

  /** Text holding no conjoining jamo is returned unchanged. */
  lemma {:induction false} JamoToHcjFixesNonConjoining(s: Text)
    requires forall i :: 0 <= i < |s| ==> !IsConjoining(s[i])
    ensures JamoToHcj(s) == s
  {
    var r := JamoToHcj(s);
    forall i | 0 <= i < |s| ensures r[i] == s[i] {
      TableKeysConjoining(s[i]);
    }
  }

  /** Every key of the table lies in the U+1100 block. */
  lemma TableKeysConjoining(c: Codepoint)
    ensures HasHcj(c) ==> 0x1100 <= c < 0x1200
  {
  }

  /** Text holding no jamo the table knows is returned unchanged, and such
      text is the only text returned unchanged. */
  lemma JamoToHcjFixedPoints(s: Text)
    ensures JamoToHcj(s) == s <==> forall i :: 0 <= i < |s| ==> !HasHcj(s[i])
  {
    if JamoToHcj(s) == s {
      forall i | 0 <= i < |s| ensures !HasHcj(s[i]) {
        assert JamoToHcj(s)[i] == s[i];
      }
    }
  }
}

=== FILE: syllable.dfy ===
/** Decomposition of precomposed syllables into conjoining jamo
    (`hangul_to_jamo`, `h2j`) and composition of two or three jamo or HCJ
    letters into one syllable (`jamo_to_hangul`, `j2h`), by the arithmetic of
    The Unicode Standard, chapter 3, section 3.12 "Conjoining Jamo Behavior". */
module Syllables {
  import opened JamoBase
  import opened Classifier
  import opened HcjConversion

  const SBase: int := 0xAC00
  const LBase: int := 0x1100
  const VBase: int := 0x1161
  /** One below the first tail: tail index 0 means "no tail". */
  const TBase: int := 0x11A7
  const LCount: int := 19
  const VCount: int := 21
  const TCount: int := 28
  /** VCount * TCount: the syllables sharing one lead. */
  const NCount: int := 588
  /** LCount * NCount: the size of the Hangul Syllables block. */
  const SCount: int := 11172

  /** A lead, a vowel and an optional tail. */
  datatype Decomposition = Decomposition(lead: Codepoint, vowel: Codepoint, tail: Option<Codepoint>)

  /** The tail index of the Unicode formula; 0 when there is no tail. */
  function TailIndex(t: Option<Codepoint>): int
  {
    match t
    case None => 0
    case Some(c) => c - TBase
  }

  /** The position of a syllable in the Hangul Syllables block, as the
      Unicode formula computes it from the three indices. */
  function SyllableIndex(d: Decomposition): int
  {
    ((d.lead - LBase) * VCount + (d.vowel - VBase)) * TCount + TailIndex(d.tail)
  }

  /** Decomposition is made only of modern jamo. */
  predicate ModernDecomposition(d: Decomposition)
  {
    && IsModernLead(d.lead)
    && IsModernVowel(d.vowel)
    && (d.tail.Some? ==> IsModernTail(d.tail.value))
  }

  /** The three indices of the formula are recovered from the block index
      by division. */
  lemma {:induction false} IndexSplit(l: int, v: int, t: int)
    requires 0 <= l < LCount && 0 <= v < VCount && 0 <= t < TCount
    ensures 0 <= (l * VCount + v) * TCount + t < SCount
    ensures ((l * VCount + v) * TCount + t) / NCount == l
    ensures (((l * VCount + v) * TCount + t) / TCount) % VCount == v
    ensures ((l * VCount + v) * TCount + t) % TCount == t
  {
    var idx := (l * VCount + v) * TCount + t;
    assert idx == l * 588 + (v * 28 + t);
    assert 0 <= v * 28 + t < 588;
    assert idx / 28 == l * 21 + v;
    assert (l * 21 + v) % 21 == v;
  }

  /** Every block index is reached from exactly these three indices. */
  lemma {:induction false} IndexJoin(idx: int)
    requires 0 <= idx < SCount
    ensures 0 <= idx / NCount < LCount
    ensures idx == ((idx / NCount) * VCount + (idx / TCount) % VCount) * TCount + idx % TCount
  {
    var q := idx / 28;
    assert idx == q * 28 + idx % 28;
    assert q == (q / 21) * 21 + q % 21;
    assert idx / 588 == q / 21;
  }

  /** The Unicode decomposition of one syllable. */
  function Decompose(s: Codepoint): (d: Decomposition)
    requires IsHangulChar(s)
    ensures ModernDecomposition(d)
    ensures d.tail.Some? <==> (s - SBase) % TCount != 0
    ensures s == SBase + SyllableIndex(d)
  {
    var idx := s - SBase;
    IndexJoin(idx);
    var t := idx % TCount;
    Decomposition(LBase + idx / NCount, VBase + (idx / TCount) % VCount,
                  if t == 0 then None else Some(TBase + t))
  }

  /** Each syllable has exactly one decomposition into modern jamo: any
      modern lead, vowel and optional tail whose formula gives `s` is the
      decomposition of `s`. */
  lemma DecomposeUnique(s: Codepoint, d: Decomposition)
    requires IsHangulChar(s) && ModernDecomposition(d) && s == SBase + SyllableIndex(d)
    ensures Decompose(s) == d
  {
    IndexSplit(d.lead - LBase, d.vowel - VBase, TailIndex(d.tail));
  }

  /** The jamo of a decomposition, in order: two, or three with a tail. */
  function JamoOf(d: Decomposition): (r: Text)
    ensures |r| == (if d.tail.Some? then 3 else 2)
    ensures r[0] == d.lead && r[1] == d.vowel
    ensures d.tail.Some? ==> r[2] == d.tail.value
  {
    [d.lead, d.vowel] + (match d.tail case Some(t) => [t] case None => [])
  }

  /** `hangul_to_jamo` on one character: a syllable expands to its jamo,
      anything else is passed through. */
  function HangulToJamoChar(c: Codepoint): (r: Text)
    ensures IsHangulChar(c) ==> r == JamoOf(Decompose(c))
    ensures !IsHangulChar(c) ==> r == [c]
    ensures forall i :: 0 <= i < |r| ==> !IsHangulChar(r[i])
  {
    if IsHangulChar(c) then JamoOf(Decompose(c)) else [c]
  }

  /** `hangul_to_jamo` / `h2j` on a string: each character is expanded in
      place and the results are joined. The output holds no syllable and is
      at least as long as the input. */
  function HangulToJamo(s: Text): (r: Text)
    ensures forall i :: 0 <= i < |r| ==> !IsHangulChar(r[i])
    ensures |s| <= |r| <= 3 * |s|
  {
    if s == [] then [] else HangulToJamoChar(s[0]) + HangulToJamo(s[1..])
  }

  /** Decomposing a concatenation decomposes each part. */
  lemma {:induction false} HangulToJamoConcat(a: Text, b: Text)
    ensures HangulToJamo(a + b) == HangulToJamo(a) + HangulToJamo(b)
  {
    if a == [] {
      assert a + b == b;
    } else {
      assert (a + b)[1..] == a[1..] + b;
      HangulToJamoConcat(a[1..], b);
    }
  }

  /** A character that is not a syllable keeps its place between the
      decompositions of what surrounds it. */
  lemma HangulToJamoPassThrough(a: Text, c: Codepoint, b: Text)
    requires !IsHangulChar(c)
    ensures HangulToJamo(a + [c] + b) == HangulToJamo(a) + [c] + HangulToJamo(b)
  {
    HangulToJamoConcat(a + [c], b);
    HangulToJamoConcat(a, [c]);
    assert HangulToJamo([c]) == [c] + HangulToJamo([]);
  }

  /** A string is returned unchanged exactly when it holds no syllable. */
  lemma {:induction false} HangulToJamoFixedPoints(s: Text)
    ensures HangulToJamo(s) == s <==> forall i :: 0 <= i < |s| ==> !IsHangulChar(s[i])
  {
    if forall i :: 0 <= i < |s| ==> !IsHangulChar(s[i]) {
      if s != [] {
        assert !IsHangulChar(s[0]);
        HangulToJamoFixedPoints(s[1..]);
      }
    }
  }

  /** Decomposing twice is decomposing once. */
  lemma HangulToJamoIdempotent(s: Text)
    ensures HangulToJamo(HangulToJamo(s)) == HangulToJamo(s)
  {
    HangulToJamoFixedPoints(HangulToJamo(s));
  }

  /** The optional third argument of `jamo_to_hangul`. `Omitted` stands both
      for the two-argument form and for a tail given as the empty string
      `''`, which holds no character; `Given(c)` is a tail of one character,
      `chr(0)` included. */
  datatype TailArg = Omitted | Given(c: Codepoint)

  /** A tail given as the empty string or as chr(0) counts as no tail. */
  function TailOf(t: TailArg): (r: Option<Codepoint>)
    ensures r.None? <==> t == Omitted || t == Given(0)
    ensures r.Some? ==> t == Given(r.value)
  {
    match t
    case Omitted => None
    case Given(c) => if c == 0 then None else Some(c)
  }

  /** The argument resolves to a modern jamo of its class. */
  predicate ResolvesModern(c: Codepoint, cls: JamoClass)
  {
    HcjToJamo(c, cls).Ok? && IsModernOfClass(HcjToJamo(c, cls).value, cls)
  }

  /** The tail argument resolved like the others, when there is one. */
  function ResolveTail(tail: TailArg): (r: Result<Option<Codepoint>>)
    ensures TailOf(tail).None? ==> r == Ok(None)
    ensures TailOf(tail).Some? ==> (r.Ok? <==> HcjToJamo(TailOf(tail).value, Tail).Ok?)
    ensures r.Ok? && r.value.Some? ==> HcjToJamo(TailOf(tail).value, Tail) == Ok(r.value.value)
    ensures TailOf(tail).Some? && r.Ok? ==> r == Ok(Some(HcjToJamo(TailOf(tail).value, Tail).value))
  {
    match TailOf(tail)
    case None => Ok(None)
    case Some(c) =>
      match HcjToJamo(c, Tail)
      case Ok(j) => Ok(Some(j))
      case Err(e) => Err(e)
  }

  /** The three arguments can be composed into a syllable. */
  predicate Composable(lead: Codepoint, vowel: Codepoint, tail: TailArg)
  {
    && ResolvesModern(lead, Lead)
    && ResolvesModern(vowel, Vowel)
    && ResolveTail(tail).Ok?
    && (ResolveTail(tail).value.Some? ==> IsModernTail(ResolveTail(tail).value.value))
  }

  /** The resolved arguments of a composable call. */
  function Resolved(lead: Codepoint, vowel: Codepoint, tail: TailArg): (d: Decomposition)
    requires Composable(lead, vowel, tail)
    ensures ModernDecomposition(d)
  {
    Decomposition(HcjToJamo(lead, Lead).value, HcjToJamo(vowel, Vowel).value, ResolveTail(tail).value)
  }

  /** `jamo_to_hangul` / `j2h`: the syllable of a lead, a vowel and an
      optional tail, each given as a conjoining jamo or as an HCJ letter.
      It fails with InvalidJamo unless every argument resolves to a modern
      jamo of its position's class; on success the result is a syllable whose
      decomposition is exactly the resolved arguments. */
  function JamoToHangul(lead: Codepoint, vowel: Codepoint, tail: TailArg): (r: Result<Codepoint>)
    ensures r.Ok? <==> Composable(lead, vowel, tail)
    ensures r.Ok? ==> IsHangulChar(r.value) && Decompose(r.value) == Resolved(lead, vowel, tail)
    ensures r.Err? ==> r.error == InvalidJamo
  {
    if Composable(lead, vowel, tail) then
      var d := Resolved(lead, vowel, tail);
      IndexSplit(d.lead - LBase, d.vowel - VBase, TailIndex(d.tail));
      var s := SBase + SyllableIndex(d);
      DecomposeUnique(s, d);
      Ok(s)
    else
      Err(InvalidJamo)
  }

  /** The tail argument that hands a decomposition's tail back. */
  function TailArgOf(t: Option<Codepoint>): (r: TailArg)
    ensures t != Some(0) ==> TailOf(r) == t
  {
    match t
    case None => Omitted
    case Some(c) => Given(c)
  }

  /** Composition inverts decomposition: the jamo `hangul_to_jamo` gives
      for a syllable compose back to that syllable. */
  lemma RoundTrip(s: Codepoint)
    requires IsHangulChar(s)
    ensures var js := HangulToJamoChar(s);
            JamoToHangul(js[0], js[1], if |js| == 3 then Given(js[2]) else Omitted) == Ok(s)
  {
    var d := Decompose(s);
    ModernClassified(d.lead, Lead);
    ModernClassified(d.vowel, Vowel);
    CategoriesNest(d.lead);
    CategoriesNest(d.vowel);
    if d.tail.Some? {
      ModernClassified(d.tail.value, Tail);
      CategoriesNest(d.tail.value);
    }
    var js := HangulToJamoChar(s);
    var t := if |js| == 3 then Given(js[2]) else Omitted;
    assert Resolved(js[0], js[1], t) == d;
    DecomposeUnique(s, d);
  }

  /** A modern jamo resolves to itself, and so does its compatibility
      letter, in the jamo's own class. */
  lemma ResolveModern(j: Codepoint, cls: JamoClass)
    requires IsModernOfClass(j, cls)
    ensures HcjToJamo(j, cls) == Ok(j) && HcjToJamo(JamoToHcjChar(j), cls) == Ok(j)
    ensures ResolvesModern(j, cls) && ResolvesModern(JamoToHcjChar(j), cls)
  {
    ModernClassified(j, cls);
    CategoriesNest(j);
    HcjRoundTrip(j, cls);
  }

  /** Composition sees its arguments only through what they resolve to. */
  lemma SameResolution(l1: Codepoint, v1: Codepoint, t1: TailArg, l2: Codepoint, v2: Codepoint, t2: TailArg)
    requires HcjToJamo(l1, Lead) == HcjToJamo(l2, Lead) && HcjToJamo(v1, Vowel) == HcjToJamo(v2, Vowel)
    requires ResolveTail(t1) == ResolveTail(t2)
    ensures JamoToHangul(l1, v1, t1) == JamoToHangul(l2, v2, t2)
  {
    assert Composable(l1, v1, t1) == Composable(l2, v2, t2);
    if Composable(l1, v1, t1) {
      assert Resolved(l1, v1, t1) == Resolved(l2, v2, t2);
      DecomposeUnique(JamoToHangul(l1, v1, t1).value, Resolved(l1, v1, t1));
      DecomposeUnique(JamoToHangul(l2, v2, t2).value, Resolved(l2, v2, t2));
    }
  }

  /** The same syllable is rebuilt from the compatibility letters of its
      jamo. */
  lemma RoundTripThroughHcj(s: Codepoint)
    requires IsHangulChar(s)
    ensures var js := JamoToHcj(HangulToJamoChar(s));
            JamoToHangul(js[0], js[1], if |js| == 3 then Given(js[2]) else Omitted) == Ok(s)
  {
    var d := Decompose(s);
    var ks := HangulToJamoChar(s);
    var js := JamoToHcj(ks);
    RoundTrip(s);
    assert (if |ks| == 3 then Given(ks[2]) else Omitted) == TailArgOf(d.tail);
    assert (if |js| == 3 then Given(js[2]) else Omitted) == HcjTail(d.tail);
    HcjArguments(d.lead, d.vowel, d.tail);
  }

  /** A `chr(0)` tail composes like no tail at all: the same syllable, or the
      same refusal. */
  lemma ZeroTailIsOmitted(l: Codepoint, v: Codepoint)
    ensures JamoToHangul(l, v, Given(0)) == JamoToHangul(l, v, Omitted)
  {
    SameResolution(l, v, Given(0), l, v, Omitted);
  }

  /** Composition depends only on what the arguments resolve to: a jamo and
      its compatibility letter may be exchanged in any position, with or
      without a tail. */
  lemma MixedArguments(l: Codepoint, v: Codepoint, t: Option<Codepoint>)
    requires ModernDecomposition(Decomposition(l, v, t))
    ensures JamoToHangul(JamoToHcjChar(l), v, TailArgOf(t)) == JamoToHangul(l, v, TailArgOf(t))
    ensures JamoToHangul(l, JamoToHcjChar(v), TailArgOf(t)) == JamoToHangul(l, v, TailArgOf(t))
    ensures JamoToHangul(l, v, HcjTail(t)) == JamoToHangul(l, v, TailArgOf(t))
    ensures JamoToHangul(l, v, TailArgOf(t)).Ok?
  {
    ResolveModern(l, Lead);
    ResolveModern(v, Vowel);
    if t.Some? {
      ResolveModern(t.value, Tail);
      var ht := JamoToHcjChar(t.value);
      assert TailOf(Given(ht)) == Some(ht) && TailOf(Given(t.value)) == Some(t.value);
      assert ResolveTail(HcjTail(t)) == Ok(t) == ResolveTail(TailArgOf(t));
    }
    assert Composable(l, v, TailArgOf(t));
    SameResolution(JamoToHcjChar(l), v, TailArgOf(t), l, v, TailArgOf(t));
    SameResolution(l, JamoToHcjChar(v), TailArgOf(t), l, v, TailArgOf(t));
    SameResolution(l, v, HcjTail(t), l, v, TailArgOf(t));
  }

  /** The HCJ form of a tail argument. */
  function HcjTail(t: Option<Codepoint>): TailArg
  {
    match t
    case None => Omitted
    case Some(c) => Given(JamoToHcjChar(c))
  }

  /** Giving every argument as its compatibility letter composes the same
      syllable as giving the modern jamo themselves. */
  lemma HcjArguments(l: Codepoint, v: Codepoint, t: Option<Codepoint>)
    requires ModernDecomposition(Decomposition(l, v, t))
    ensures JamoToHangul(JamoToHcjChar(l), JamoToHcjChar(v), HcjTail(t)) == JamoToHangul(l, v, TailArgOf(t))
    ensures JamoToHangul(l, v, TailArgOf(t)).Ok?
  {
    ResolveModern(l, Lead);
    ResolveModern(v, Vowel);
    if t.Some? {
      ResolveModern(t.value, Tail);
      var ht := JamoToHcjChar(t.value);
      assert TailOf(Given(ht)) == Some(ht) && TailOf(Given(t.value)) == Some(t.value);
      assert ResolveTail(HcjTail(t)) == Ok(t) == ResolveTail(TailArgOf(t));
    }
    assert Composable(l, v, TailArgOf(t));
    SameResolution(JamoToHcjChar(l), JamoToHcjChar(v), HcjTail(t), l, v, TailArgOf(t));
  }
}

=== FILE: vectors.dfy ===
/** The worked examples of the library's behaviour, each stated as a lemma
    about the model: classifier edges, the jamo/HCJ lists, the class-scoped
    reverse lookup, decomposition of sample words and composition from
    jamo, from HCJ and from mixed arguments, with the refused inputs. */
module TestVectors {
  import opened JamoBase
  import opened Classifier
  import opened HcjConversion
  import opened Syllables

  /** The codepoints lo, lo+1, ..., hi-1. */
  function Range(lo: Codepoint, hi: Codepoint): (r: Text)
    requires lo <= hi
    ensures |r| == hi - lo
    ensures forall i :: 0 <= i < |r| ==> r[i] == lo + i
  {
    seq(hi - lo, i requires 0 <= i < hi - lo => lo + i)
  }

  /** The edges of every classifier: the codepoint just outside each range
      is refused, the first and last inside are accepted. */
  lemma ClassifierEdges()
    ensures IsJamo(0x1100) && IsJamo(0x11FF) && IsJamo(0x3131) && IsJamo(0x3163)
    ensures IsJamo(0x3165) && IsJamo(0x318E) && IsJamo(0xA960) && IsJamo(0xA97C)
    ensures IsJamo(0xD7B0) && IsJamo(0xD7C6) && IsJamo(0xD7CB) && IsJamo(0xD7FB)
    ensures !IsJamo(0x10FF) && !IsJamo(0x1200) && !IsJamo(0x3130) && !IsJamo(0x3164)
    ensures !IsJamo(0x318F) && !IsJamo(0xA95F) && !IsJamo(0xA97D) && !IsJamo(0xA07D) && !IsJamo(0xD7AF)
    ensures !IsJamo(0xD7C7) && !IsJamo(0xD7CA) && !IsJamo(0xD7FC)
    ensures !IsJamoModern(0x10FF) && !IsJamoModern(0x1113) && !IsJamoModern(0x1160)
    ensures !IsJamoModern(0x1176) && !IsJamoModern(0x11A7) && !IsJamoModern(0x11C3)
    ensures IsJamoModern(0x1112) && IsJamoModern(0x1161) && IsJamoModern(0x11C2) && IsJamoModern(0x3163)
    ensures IsJamoModern(0x1100) && IsJamoModern(0x1175) && IsJamoModern(0x11A8) && IsJamoModern(0x3131)
    ensures !IsJamoModern(0x3130) && !IsJamoModern(0x3164)
    ensures !IsHcj(0x3130) && !IsHcj(0x3164) && !IsHcj(0x318F) && !IsHcj(0x1100) && !IsHcj(0x11FF)
    ensures IsHcjModern(0x3131) && IsHcjModern(0x3163)
    ensures !IsHcjModern(0x3130) && !IsHcjModern(0x3164) && !IsHcjModern(0x3165) && !IsHcjModern(0x318E)
    ensures IsHangulChar(0xAC00) && IsHangulChar(0xD7A3)
    ensures !IsHangulChar(0xABFF) && !IsHangulChar(0xD7A4) && !IsHangulChar('ㄱ' as int)
    ensures !IsHangulChar('a' as int) && !IsHangulChar(0x1100)
  {
  }

  /** The ranges the classifiers accept, codepoint by codepoint: the U+11xx
      block, HCJ without the filler, Extended-A and Extended-B without its
      gap, and the modern HCJ letters. */
  lemma ClassifierRanges()
    ensures forall c :: 0x1100 <= c < 0x1200 ==> IsJamo(c)
    ensures forall c :: (0x3131 <= c < 0x3164 || 0x3165 <= c < 0x318F) ==> IsJamo(c) && IsHcj(c)
    ensures forall c :: 0xA960 <= c < 0xA97D ==> IsJamo(c)
    ensures forall c :: (0xD7B0 <= c < 0xD7C7 || 0xD7CB <= c < 0xD7FC) ==> IsJamo(c)
    ensures forall c :: 0x3131 <= c < 0x3164 ==> IsHcjModern(c)
  {
  }

  /** The sample syllables are syllables. */
  lemma SyllablesAreHangul(s: Text)
    requires s == Str("가나다한글한극어힣")
    ensures forall i :: 0 <= i < |s| ==> IsHangulChar(s[i]) && !IsJamo(s[i]) && !IsJamoModern(s[i])
  {
  }

  /** ASCII, punctuation and dashes are neither jamo, HCJ nor syllables. */
  lemma OtherCharactersRefused(s: Text)
    requires s == Str("abABzyZY ,.:;~`―—–/!@#$%^&*()[]{}")
    ensures forall i :: 0 <= i < |s| ==> !IsJamo(s[i]) && !IsJamoModern(s[i]) && !IsHangulChar(s[i])
    ensures forall i :: 0 <= i < |s| ==> !IsHcj(s[i]) && !IsHcjModern(s[i])
  {
  }

  /** HCJ letters are not syllables. */
  lemma HcjIsNotHangul(s: Text)
    requires s == Str("ㄱㄴㅓ")
    ensures forall i :: 0 <= i < |s| ==> IsHcjModern(s[i]) && !IsHangulChar(s[i])
  {
  }

  /** Conjoining jamo, modern or archaic, are not HCJ; an archaic lead and the
      archaic HCJ letters are not modern. */
  lemma ConjoiningIsNotHcj(s: Text)
    requires s == Str("ᄀᄓᅡᅶᆨᇃᇿㆎㅥ")
    ensures forall i :: 0 <= i < 7 ==> !IsHcj(s[i]) && IsJamo(s[i])
    ensures forall i :: 0 <= i < |s| ==> !IsHcjModern(s[i])
    ensures !IsJamoModern(s[1]) && IsJamo(s[1])
    ensures forall i :: 0 <= i < |s| ==> !IsHangulChar(s[i])
  {
  }

  /** The HCJ test lists are the table's columns. */
  lemma HcjListsAreColumns()
    ensures Str("ㄱㄲㄴㄷㄸㄹㅁㅂㅃㅅㅆㅇㅈㅉㅊㅋㅌㅍㅎ") == LeadsHcj
    ensures Str("ㄱㄲㄳㄴㄵㄶㄷㄹㄺㄻㄼㄽㄾㄿㅀㅁㅂㅄㅅㅆㅇㅈㅊㅋㅌㅍㅎ") == TailsHcj
  {
  }

  /** Every letter of the three modern HCJ lists is modern jamo. */
  lemma ModernHcjListsAreModern()
    ensures forall c :: c in LeadsHcj ==> IsJamoModern(c)
    ensures forall c :: c in TailsHcj ==> IsJamoModern(c)
    ensures forall c :: c in Range(0x314F, 0x3164) ==> IsJamoModern(c)
  {
    TableWellFormed();
  }

  /** `get_jamo_class` at the class edges, including both fillers, and its
      refusals. */
  lemma JamoClassExamples()
    ensures GetJamoClass(0x1100) == Ok(Lead) && GetJamoClass(0x115F) == Ok(Lead)
    ensures GetJamoClass(0x1160) == Ok(Vowel) && GetJamoClass(0x11A7) == Ok(Vowel)
    ensures GetJamoClass(0x11A8) == Ok(Tail) && GetJamoClass(0x11FF) == Ok(Tail)
    ensures GetJamoClass(0x10FF) == Err(InvalidJamo) && GetJamoClass(0x1200) == Err(InvalidJamo)
    ensures JamoClassOf(Str("a")) == Err(InvalidJamo) && JamoClassOf(Str("~")) == Err(InvalidJamo)
    ensures JamoClassOf(Str("")) == Err(NotASingleCharacter)
    ensures JamoClassOf(Str("ᄂᄃ")) == Err(NotASingleCharacter)
  {
  }

  /** The modern leads map, in chart order, onto the lead list. */
  lemma ModernLeadsToHcj()
    ensures JamoToHcj(Range(0x1100, 0x1113)) == LeadsHcj
  {
    TableWellFormed();
  }

  /** The modern vowels map onto U+314F..U+3163 by offset. */
  lemma ModernVowelsToHcj()
    ensures JamoToHcj(Range(0x1161, 0x1176)) == Range(0x314F, 0x3164)
  {
    var r := JamoToHcj(Range(0x1161, 0x1176));
    forall i | 0 <= i < |r| ensures r[i] == 0x314F + i {
      assert IsModernVowel(0x1161 + i);
    }
  }

  /** The modern tails map, in chart order, onto the tail list. */
  lemma ModernTailsToHcj()
    ensures JamoToHcj(Range(0x11A8, 0x11C3)) == TailsHcj
  {
    TableWellFormed();
  }

  /** The two archaic jamo of the example have compatibility forms. */
  lemma ArchaicCharsToHcj()
    ensures JamoToHcjChar(0x11F9) == 0x3186 && JamoToHcjChar(0x11EB) == 0x317F
  {
    assert IndexOf(ArchaicJamo, 0x11F9) == Some(2);
    assert IndexOf(ArchaicJamo, 0x11EB) == Some(1);
  }

  lemma ArchaicExampleStrings()
    ensures Str("ᄀᄁᄂᄃᇹᇫ") == [0x1100, 0x1101, 0x1102, 0x1103, 0x11F9, 0x11EB]
    ensures Str("ㄱㄲㄴㄷㆆㅿ") == [0x3131, 0x3132, 0x3134, 0x3137, 0x3186, 0x317F]
  {
  }

  lemma {:induction false} ArchaicExampleConverted(s: Text, h: Text)
    requires s == [0x1100, 0x1101, 0x1102, 0x1103, 0x11F9, 0x11EB]
    requires h == [0x3131, 0x3132, 0x3134, 0x3137, 0x3186, 0x317F]
    ensures JamoToHcj(s) == h
  {
    ArchaicCharsToHcj();
    assert LeadsHcj[..4] == [0x3131, 0x3132, 0x3134, 0x3137];
    var r := JamoToHcj(s);
    assert |r| == |h|;
    forall i | 0 <= i < |r| ensures r[i] == h[i] {
      if i < 4 {
        assert s[i] == 0x1100 + i;
        assert r[i] == LeadsHcj[i];
      }
    }
  }

  /** Archaic jamo with a compatibility form are converted along with modern
      ones. */
  lemma ArchaicToHcj()
    ensures JamoToHcj(Str("ᄀᄁᄂᄃᇹᇫ")) == Str("ㄱㄲㄴㄷㆆㅿ")
  {
    ArchaicExampleStrings();
    ArchaicExampleConverted(Str("ᄀᄁᄂᄃᇹᇫ"), Str("ㄱㄲㄴㄷㆆㅿ"));
  }

  /** Text without a jamo the table knows is passed through: the empty
      string and ASCII. */
  lemma {:induction false} JamoToHcjKeepsAscii(s: Text)
    requires s == Str("test123")
    ensures JamoToHcj(s) == s
    ensures JamoToHcj(Str("")) == Str("")
  {
    forall i | 0 <= i < |s| ensures !IsConjoining(s[i]) { }
    JamoToHcjFixesNonConjoining(s);
  }

  lemma {:induction false} JamoToHcjKeepsPunctuation(s: Text)
    requires s == Str("aAzZ ,.:;~`―—–/!@#$%^&*()[]{}")
    ensures JamoToHcj(s) == s
  {
    forall i | 0 <= i < |s| ensures !IsConjoining(s[i]) { }
    JamoToHcjFixesNonConjoining(s);
  }

  lemma {:induction false} JamoToHcjKeepsChinese(s: Text)
    requires s == Str("汉语 / 漢語; Hànyǔ or 中文; Zhōngwén")
    ensures JamoToHcj(s) == s
  {
    forall i | 0 <= i < |s| ensures !IsConjoining(s[i]) { }
    JamoToHcjFixesNonConjoining(s);
  }

  /** HCJ is already compatibility jamo and is passed through. */
  lemma {:induction false} JamoToHcjKeepsHcj(s: Text)
    requires s == Str("ㄱㆎ")
    ensures JamoToHcj(s) == s
  {
    forall i | 0 <= i < |s| ensures !IsConjoining(s[i]) { }
    JamoToHcjFixesNonConjoining(s);
  }

  /** The archaic vowels of the example are written as a codepoint range. */
  lemma UnmappedVowelsAreRange()
    ensures Str("ᅶᅷᅸᅹᅺᅻᅼᅽᅾᅿᆆ") == Range(0x1176, 0x1180) + [0x1186]
  {
  }

  /** Archaic vowels without a compatibility form are passed through. */
  lemma JamoToHcjKeepsUnmapped()
    ensures JamoToHcj(Str("ᅶᅷᅸᅹᅺᅻᅼᅽᅾᅿᆆ")) == Str("ᅶᅷᅸᅹᅺᅻᅼᅽᅾᅿᆆ")
  {
    UnmappedVowelsAreRange();
    var s := Range(0x1176, 0x1180) + [0x1186];
    forall i | 0 <= i < |s| ensures !HasHcj(s[i]) {
      assert 0x1176 <= s[i] <= 0x1186;
    }
    JamoToHcjFixedPoints(s);
  }

  /** The same compatibility letter resolves per class. */
  lemma HcjToJamoKiyeok()
    ensures HcjToJamo('ㄱ' as int, Lead) == Ok(0x1100) && HcjToJamo('ㄱ' as int, Tail) == Ok(0x11A8)
  {
    HcjRoundTrip(0x1100, Lead);
    HcjRoundTrip(0x11A8, Tail);
  }

  lemma HcjToJamoHieuh()
    ensures HcjToJamo('ㅎ' as int, Lead) == Ok(0x1112) && HcjToJamo('ㅎ' as int, Tail) == Ok(0x11C2)
  {
    HcjRoundTrip(0x1112, Lead);
    HcjRoundTrip(0x11C2, Tail);
  }

  /** Archaic letters resolve to archaic jamo of the requested class. */
  lemma HcjToJamoArchaic()
    ensures HcjToJamo('ㅹ' as int, Lead) == Ok(0x112C)
  {
    HcjRoundTrip(0x112C, Lead);
  }

  lemma HcjToJamoArchaicTail()
    ensures HcjToJamo('ㅥ' as int, Tail) == Ok(0x11FF)
  {
    HcjRoundTrip(0x11FF, Tail);
  }

  lemma HcjToJamoVowels()
    ensures HcjToJamo('ㅏ' as int, Vowel) == Ok(0x1161) && HcjToJamo('ㅣ' as int, Vowel) == Ok(0x1175)
  {
  }

  /** A letter without a jamo of the requested class, and a codepoint that is
      no HCJ letter, are refused. */
  lemma HcjToJamoVowelAsLead()
    ensures HcjToJamo('ㅏ' as int, Lead) == Err(InvalidJamo)
  {
    TableWellFormed();
    assert 0x314F !in LeadsHcj;
  }

  lemma HcjToJamoLeadOnlyAsTail()
    ensures HcjToJamo('ㄸ' as int, Tail) == Err(InvalidJamo)
  {
    TableWellFormed();
    assert 0x3138 !in TailsHcj;
  }

  lemma HcjToJamoLatin()
    ensures HcjToJamo('a' as int, Vowel) == Err(InvalidJamo)
  {
  }

  /** A conjoining jamo is its own answer in its own class and is refused
      in any other. */
  lemma HcjToJamoOfJamo()
    ensures HcjToJamo(0x1100, Lead) == Ok(0x1100) && HcjToJamo(0x1161, Vowel) == Ok(0x1161)
    ensures HcjToJamo(0x11A8, Tail) == Ok(0x11A8) && HcjToJamo(0x1100, Tail) == Err(InvalidJamo)
  {
  }

  /** A single syllable decomposes into the jamo of its decomposition. */
  lemma OneSyllable(s: Text, js: Text)
    requires |s| == 1 && IsHangulChar(s[0]) && JamoOf(Decompose(s[0])) == js
    ensures HangulToJamo(s) == js
  {
    assert s == [s[0]] + [];
    HangulToJamoConcat([s[0]], []);
  }

  /** Decomposition of the sample syllables. */
  lemma HangulToJamoSyllables()
    ensures HangulToJamo(Str("자")) == [0x110C, 0x1161]
    ensures HangulToJamo(Str("모")) == [0x1106, 0x1169]
    ensures HangulToJamo(Str("한")) == [0x1112, 0x1161, 0x11AB]
    ensures HangulToJamo(Str("글")) == [0x1100, 0x1173, 0x11AF]
  {
    OneSyllable(Str("자"), [0x110C, 0x1161]);
    OneSyllable(Str("모"), [0x1106, 0x1169]);
    OneSyllable(Str("한"), [0x1112, 0x1161, 0x11AB]);
    OneSyllable(Str("글"), [0x1100, 0x1173, 0x11AF]);
  }

  /** Decomposition of the remaining sample syllables. */
  lemma HangulToJamoMoreSyllables()
    ensures HangulToJamo(Str("서")) == [0x1109, 0x1165]
    ensures HangulToJamo(Str("울")) == [0x110B, 0x116E, 0x11AF]
    ensures HangulToJamo(Str("평")) == [0x1111, 0x1167, 0x11BC]
    ensures HangulToJamo(Str("양")) == [0x110B, 0x1163, 0x11BC]
  {
    OneSyllable(Str("서"), [0x1109, 0x1165]);
    OneSyllable(Str("울"), [0x110B, 0x116E, 0x11AF]);
    OneSyllable(Str("평"), [0x1111, 0x1167, 0x11BC]);
    OneSyllable(Str("양"), [0x110B, 0x1163, 0x11BC]);
  }

  /** Decomposition of a word: the syllables expand in order. */
  lemma HangulToJamoWord()
    ensures HangulToJamo(Str("한굴")) == [0x1112, 0x1161, 0x11AB, 0x1100, 0x116E, 0x11AF]
  {
    assert Str("한굴") == [0xD55C, 0xAD74];
    assert HangulToJamo([0xD55C, 0xAD74]) == [0x1112, 0x1161, 0x11AB, 0x1100, 0x116E, 0x11AF];
  }

  /** The sentence example is ASCII around the word 한국어. */
  lemma SentenceParts()
    ensures Str("Do you speak 한국어?") == Str("Do you speak ") + [0xD55C, 0xAD6D, 0xC5B4] + [0x3F]
  {
  }

  lemma KoreanWord()
    ensures HangulToJamo([0xD55C, 0xAD6D, 0xC5B4]) == [0x1112, 0x1161, 0x11AB, 0x1100, 0x116E, 0x11A8, 0x110B, 0x1165]
  {
  }

  lemma {:induction false} EnglishPrefix(p: Text)
    requires p == Str("Do you speak ")
    ensures HangulToJamo(p) == p
  {
    forall i | 0 <= i < |p| ensures !IsHangulChar(p[i]) { }
    HangulToJamoFixedPoints(p);
  }

  /** A decomposed word between text without syllables and a question mark. */
  lemma SentenceJoin(prefix: Text, word: Text, jamo: Text)
    requires HangulToJamo(prefix) == prefix && HangulToJamo(word) == jamo
    ensures HangulToJamo(prefix + word + [0x3F]) == prefix + jamo + [0x3F]
  {
    HangulToJamoPassThrough(prefix + word, 0x3F, []);
    assert prefix + word + [0x3F] + [] == prefix + word + [0x3F];
    assert HangulToJamo([]) == [];
    HangulToJamoConcat(prefix, word);
  }

  /** Decomposition inside a sentence: other characters keep their places. */
  lemma HangulToJamoSentence(s: Text)
    requires s == Str("Do you speak 한국어?")
    ensures HangulToJamo(s) ==
            Str("Do you speak ") + [0x1112, 0x1161, 0x11AB, 0x1100, 0x116E, 0x11A8, 0x110B, 0x1165] + Str("?")
  {
    var p := Str("Do you speak ");
    assert Str("?") == [0x3F];
    SentenceParts();
    KoreanWord();
    EnglishPrefix(p);
    SentenceJoin(p, [0xD55C, 0xAD6D, 0xC5B4],
                 [0x1112, 0x1161, 0x11AB, 0x1100, 0x116E, 0x11A8, 0x110B, 0x1165]);
  }

  lemma HangulToJamoMixedScripts(s: Text)
    requires s == Str("자모=字母")
    ensures HangulToJamo(s) == [0x110C, 0x1161, 0x1106, 0x1169] + Str("=字母")
  {
    var syllables: Text := [0xC790, 0xBAA8];
    var rest := Str("=字母");
    assert s == syllables + rest;
    assert HangulToJamo(syllables) == [0x110C, 0x1161, 0x1106, 0x1169];
    forall i | 0 <= i < |rest| ensures !IsHangulChar(rest[i]) { }
    HangulToJamoFixedPoints(rest);
    HangulToJamoConcat(syllables, rest);
  }

  /** Text without syllables is returned unchanged: the empty string, ASCII
      and compatibility jamo. */
  lemma {:induction false} HangulToJamoKeepsNonSyllables(s: Text, h: Text)
    requires s == Str("test123~") && h == Str("ㄱㄲㄴㄷㆆㅿ")
    ensures HangulToJamo(s) == s && HangulToJamo(h) == h
    ensures HangulToJamo(Str("")) == Str("")
  {
    forall i | 0 <= i < |s| ensures !IsHangulChar(s[i]) { }
    HangulToJamoFixedPoints(s);
    forall i | 0 <= i < |h| ensures !IsHangulChar(h[i]) { }
    HangulToJamoFixedPoints(h);
  }

  /** The sample syllables are rebuilt from conjoining jamo with a chr(0)
      tail where there is none. */
  lemma JamoToHangulFromJamo()
    ensures JamoToHangul(0x110C, 0x1161, Given(0)) == Ok('자' as int)
    ensures JamoToHangul(0x1106, 0x1169, Given(0)) == Ok('모' as int)
    ensures JamoToHangul(0x1112, 0x1161, Given(0x11AB)) == Ok('한' as int)
    ensures JamoToHangul(0x1100, 0x1173, Given(0x11AF)) == Ok('글' as int)
    ensures JamoToHangul(0x1109, 0x1165, Given(0)) == Ok('서' as int)
    ensures JamoToHangul(0x110B, 0x116E, Given(0x11AF)) == Ok('울' as int)
    ensures JamoToHangul(0x1111, 0x1167, Given(0x11BC)) == Ok('평' as int)
    ensures JamoToHangul(0x110B, 0x1163, Given(0x11BC)) == Ok('양' as int)
  {
  }

  /** A composition from HCJ letters, checked through the jamo they stand
      for. */
  lemma ComposedFromHcj(l: Codepoint, v: Codepoint, t: Option<Codepoint>,
                        hl: Codepoint, hv: Codepoint, ht: TailArg, s: Codepoint)
    requires ModernDecomposition(Decomposition(l, v, t))
    requires hl == JamoToHcjChar(l) && hv == JamoToHcjChar(v) && ht == HcjTail(t)
    requires JamoToHangul(l, v, TailArgOf(t)) == Ok(s)
    ensures JamoToHangul(hl, hv, ht) == Ok(s)
  {
    HcjArguments(l, v, t);
  }

  /** The same syllables are rebuilt from HCJ, with the empty string as the
      absent tail. */
  lemma JamoToHangulFromHcj()
    ensures JamoToHangul('ㅈ' as int, 'ㅏ' as int, Omitted) == Ok('자' as int)
  {
    ComposedFromHcj(0x110C, 0x1161, None, 'ㅈ' as int, 'ㅏ' as int, Omitted, '자' as int);
  }

  lemma JamoToHangulFromHcjMo()
    ensures JamoToHangul('ㅁ' as int, 'ㅗ' as int, Omitted) == Ok('모' as int)
  {
    ComposedFromHcj(0x1106, 0x1169, None, 'ㅁ' as int, 'ㅗ' as int, Omitted, '모' as int);
  }

  lemma JamoToHangulFromHcjHan()
    ensures JamoToHangul('ㅎ' as int, 'ㅏ' as int, Given('ㄴ' as int)) == Ok('한' as int)
  {
    ComposedFromHcj(0x1112, 0x1161, Some(0x11AB), 'ㅎ' as int, 'ㅏ' as int, Given('ㄴ' as int), '한' as int);
  }

  lemma JamoToHangulFromHcjGeul()
    ensures JamoToHangul('ㄱ' as int, 'ㅡ' as int, Given('ㄹ' as int)) == Ok('글' as int)
  {
    ComposedFromHcj(0x1100, 0x1173, Some(0x11AF), 'ㄱ' as int, 'ㅡ' as int, Given('ㄹ' as int), '글' as int);
  }

  lemma JamoToHangulFromHcjSeo()
    ensures JamoToHangul('ㅅ' as int, 'ㅓ' as int, Omitted) == Ok('서' as int)
  {
    ComposedFromHcj(0x1109, 0x1165, None, 'ㅅ' as int, 'ㅓ' as int, Omitted, '서' as int);
  }

  lemma JamoToHangulFromHcjUl()
    ensures JamoToHangul('ㅇ' as int, 'ㅜ' as int, Given('ㄹ' as int)) == Ok('울' as int)
  {
    ComposedFromHcj(0x110B, 0x116E, Some(0x11AF), 'ㅇ' as int, 'ㅜ' as int, Given('ㄹ' as int), '울' as int);
  }

  lemma JamoToHangulFromHcjPyeong()
    ensures JamoToHangul('ㅍ' as int, 'ㅕ' as int, Given('ㅇ' as int)) == Ok('평' as int)
  {
    ComposedFromHcj(0x1111, 0x1167, Some(0x11BC), 'ㅍ' as int, 'ㅕ' as int, Given('ㅇ' as int), '평' as int);
  }

  lemma JamoToHangulFromHcjYang()
    ensures JamoToHangul('ㅇ' as int, 'ㅑ' as int, Given('ㅇ' as int)) == Ok('양' as int)
  {
    ComposedFromHcj(0x110B, 0x1163, Some(0x11BC), 'ㅇ' as int, 'ㅑ' as int, Given('ㅇ' as int), '양' as int);
  }

  /** The two-argument form. */
  lemma JamoToHangulTwoArguments()
    ensures JamoToHangul('ㅎ' as int, 'ㅏ' as int, Omitted) == Ok('하' as int)
  {
    ComposedFromHcj(0x1112, 0x1161, None, 'ㅎ' as int, 'ㅏ' as int, Omitted, '하' as int);
  }

  /** A conjoining lead with an HCJ vowel and tail. */
  lemma JamoToHangulMixed()
    ensures JamoToHangul('ᄒ' as int, 'ㅏ' as int, Given('ㄴ' as int)) == Ok('한' as int)
  {
    JamoToHangulFromHcjHan();
    MixedArguments(0x1112, 0x1161, Some(0x11AB));
  }

  /** The refused calls, and a filler lead, which is classed but never
      composed. */
  lemma JamoToHangulRefusals()
    ensures JamoToHangul('a' as int, 'b' as int, Given('c' as int)) == Err(InvalidJamo)
    ensures JamoToHangul('a' as int, 'b' as int, Omitted) == Err(InvalidJamo)
    ensures JamoToHangul('ㄴ' as int, 'ㄴ' as int, Given('ㄴ' as int)) == Err(InvalidJamo)
    ensures JamoToHangul('ㅏ' as int, 'ㄴ' as int, Omitted) == Err(InvalidJamo)
    ensures JamoToHangul(0x115F, 0x1161, Omitted) == Err(InvalidJamo)
  {
    TableWellFormed();
  }
}
